=== FILE: README.md ===
# Video Uploader — a Dafny model

This project models the core of a small tool that uploads local video files
to an IBM Cloud Object Storage bucket through IBM Aspera's local transfer
daemon (`transferd`). The core is the `VideoUploader` class in `main.py`:

- discovering `.mp4`/`.mov` files under a directory, or accepting a single file;
- validating the sources: each must exist, be a regular file and be readable;
- building the Aspera TransferSpecV2 document. This covers the `https://`
  scheme fix-up of the endpoint, the slash-wrapped destination prefix, and one
  `{"source": path}` entry per file;
- checking the four required credentials just before a real upload;
- connecting lazily to the daemon, starting the transfer and monitoring its
  progress stream until it completes, fails or runs past 300 seconds;
- the order of all of this in `upload_videos`, including the dry run. A dry
  run builds the document and stops before connecting or checking credentials.

Modules, one per part of the class:

| file | module | models |
|---|---|---|
| `wrappers.dfy` | `Wrappers` | Python's `None` as `Option` |
| `text.dfy` | `Text` | `str.strip()`, `startswith`, `endswith`, `str(int)` |
| `config.dfy` | `Config` | the settings `__init__` reads from the environment |
| `transfer_spec.dfy` | `TransferSpecs` | `create_transfer_spec` |
| `environment.dfy` | `Environment` | `_validate_environment` |
| `discovery.dfy` | `Discovery` | `find_video_files` and the validation loop of `upload_videos` |
| `monitor.dfy` | `Monitor` | `get_status_text` and the monitor loop of `upload_videos` |
| `uploader.dfy` | `Uploader` | the class: the `client` field, `connect`, `upload_videos` |

The model has no I/O:

- The environment is a map.
- The filesystem is a value. It holds the kind of each path, the set of
  readable paths, and the order in which a recursive listing visits paths.
  `ValidFs` states what a real filesystem of resolved paths guarantees: the
  listing visits every existing path exactly once, and anything below a
  resolved path (`/`, or a rooted path without a trailing slash) has that
  path as an existing directory.
- The daemon's behaviour comes in as parameters: whether the client stub could
  be created, the reply to `StartTransfer`, and the monitoring stream. The
  stream is a finite list of samples plus how it ended (closed, or with an
  error).
- Elapsed seconds travel with each sample in place of the clock.
- A `sys.exit(1)` becomes an `Outcome` value.

The pure parts (`create_transfer_spec`, `find_video_files`, `get_status_text`,
the missing-variable list) are functions with lemmas. The parts that update
state or loop are methods: `connect` updates the `client` field, and the
validation and monitor loops are `for` loops with invariants.

Points where the code does less than its own comments suggest; the model
follows the code:

- The docstrings (main.py:4, main.py:11, main.py:127) speak of `.mp4`/`.mov`
  files, but main.py:130 lists exactly `.mp4`, `.mov`, `.MP4` and `.MOV` and
  compares suffixes exactly, so `.Mp4` is rejected.
- The comment at main.py:169-170 offers a per-file `destination` key as an
  option, but the code never writes one, so `PathEntry` has only `source`.
- When every source is rejected, `upload_videos` only returns (main.py:246-248,
  `NoValidFiles`), and a transfer the daemon reports as failed ends monitoring
  normally (main.py:313-317, `TransferFailed`). Neither ends the process with
  a failure status, unlike the connection failure, missing credentials, a
  `StartTransfer` error and a broken monitoring stream, which all call
  `sys.exit(1)`.

## Model

| member | source | states |
|---|---|---|
| `Text.Strip` | main.py:159 | the result has no whitespace at either end; `LStrip`/`RStrip` say only leading/trailing whitespace (Python's `isspace` set) was removed |
| `Text.StripKeeps` | main.py:159 | stripping a string whose ends are not whitespace changes nothing |
| `Text.StripAllSpace` | main.py:159 | a whitespace-only string strips to `""` |
| `Text.SingleCharAffixes` | main.py:160-163 | the one-character tests used for `startswith("/")` and `endswith("/")` agree with the general prefix and suffix tests |
| `Text.NatToString` | main.py:223 | digits only, no leading zero (a lone `0` only for 0), and the digits denote `n` (`DecimalValue`) |
| `Text.IntToString` | main.py:223 | the code's decimal text: it starts with `-` exactly for negative codes, the digits after any sign denote the code's magnitude, and there is no leading zero |
| `Text.IntToStringInjective` | main.py:223 | different codes give different decimal texts |
| `Text.DecimalCanonical` | main.py:223 | decimal text without leading zeros is unique: two such strings denoting the same number are equal, so `NatToString`/`IntToString` give exactly `str(n)` |
| `Config.EnvGet` | main.py:102-107 | `os.environ.get`: a value exactly when the name is set, and then the environment's value |
| `Config.ConfigFromEnv` | main.py:95-107 | credentials are `None` when their variable is unset; remote host and destination take the environment's value when set and fall back to `ats-sl-fra.aspera.io` and `/aspera-uploads` only when unset |
| `TransferSpecs.NormalizeEndpoint` | main.py:152-155 | `None`/`""` give `""`; an `http://` or `https://` endpoint is kept; anything else gets `https://` in front; a non-empty result always has a scheme and ends with the input |
| `TransferSpecs.EndpointIdempotent` | main.py:152-155 | normalising the endpoint twice equals normalising it once |
| `TransferSpecs.LeadingSlash` | main.py:160-161 | the result starts with `/`; the input is kept when it already did, else `/` is prepended |
| `TransferSpecs.TrailingSlash` | main.py:162-163 | the result ends with `/`; the input is kept when it already did, else `/` is appended; a leading `/` survives |
| `TransferSpecs.NormalizeDestination` | main.py:159-163 | the result always starts and ends with `/` and is at most two characters longer than the stripped input |
| `TransferSpecs.DestinationFraming` | main.py:159-163 | the result is the stripped text with `/` added in front only if missing and at the back only if missing; empty text gives `/` |
| `TransferSpecs.DestinationBlankIsRoot` | main.py:159-163 | a `None`, empty or whitespace-only destination gives `/` |
| `TransferSpecs.DestinationKeepsFolder` | main.py:159-163 | a destination already starting and ending with `/` is returned unchanged |
| `TransferSpecs.DestinationIdempotent` | main.py:159-163 | normalising the destination twice equals normalising it once |
| `TransferSpecs.DestinationBareName` | main.py:159-163 | a bare name such as `uploads` becomes `/uploads/` |
| `TransferSpecs.DestinationRootedPrefix` | main.py:159-163 | a rooted prefix such as `/a/b` becomes `/a/b/` |
| `TransferSpecs.PathEntries` | main.py:168 | exactly one `{source: f}` entry per file, in input order |
| `TransferSpecs.SourcesOfPathEntries` | main.py:168 | reading the sources back out of the entries gives the file list again |
| `TransferSpecs.CreateTransferSpec` | main.py:140-194 | credentials pass through unchanged; the endpoint and destination are normalised; `create_dir` is the flag; `direction` is `send`; `title` is `video file upload`; the remote host is kept; `paths[i].source` is `files[i]` |
| `TransferSpecs.CreateTransferSpecSound` | main.py:172-194 | every document built is well formed (send, title, slash-wrapped root, endpoint empty or with a scheme) and its sources are exactly the files, whatever the credentials |
| `Environment.MissingNames` | main.py:117 | every reported name belongs to an entry whose value is `None` or empty |
| `Environment.MissingNamesComplete` | main.py:117 | every entry whose value is `None` or empty is reported |
| `Environment.MissingNamesEmpty` | main.py:117-118 | nothing is reported exactly when every value is set and non-empty |
| `Environment.RequiredVars` | main.py:111-116 | four entries with pairwise distinct names |
| `Environment.RequiredVarsFromEnv` | main.py:102-116 | for a configuration read from the environment, each entry's value is that environment's value under the entry's name |
| `Environment.MissingVariables` | main.py:117 | each of the four names is reported exactly when its value is `None` or `""`, and no other name is reported |
| `Environment.MissingVariablesExact` | main.py:111-117 | the missing list is API_KEY, BUCKET, INSTANCE_ID, ENDPOINT in that order, each kept exactly when its value is blank |
| `Environment.AllMissingReported` | main.py:111-117 | with all four blank, all four names are reported |
| `Environment.ValidateEnvironment` | main.py:109-121 | the check fails exactly when the missing list is non-empty, and reports that list |
| `Environment.ValidateEnvironmentPasses` | main.py:109-121 | the check passes exactly when all four credentials are set and non-empty |
| `Discovery.BaseName` | main.py:134 | the last path component: a suffix of the path with no `/`, preceded by `/` when shorter than the path |
| `Discovery.LastDot` | main.py:134 | the index of the last `.` in the name, or -1 when there is none |
| `Discovery.Suffix` | main.py:134 | `PurePath.suffix`: empty, or a dot and at least one more character that end the path |
| `Discovery.SuffixOfName` | main.py:130-134 | a file `stem + ext` has suffix `ext`, and is a video exactly when `ext` is one of the four listed |
| `Discovery.MixedCaseRejected` | main.py:130-134 | a `.Mp4` file is not a video |
| `Discovery.DotFileHasNoSuffix` | main.py:134-138 | a hidden file named only `.mp4` has no suffix and is skipped |
| `Discovery.ScanTree` | main.py:136-138 | a path is in the scan exactly when it is listed, below the root, a regular file and a video |
| `Discovery.ScanTreeNoDuplicates` | main.py:138 | a listing without repeats gives a result without repeats |
| `Discovery.VideoExtension` | main.py:130-138 | a path accepted as a video ends with one of the four listed extensions |
| `Discovery.SmallTreeIsValid` | main.py:135-138 | the plain tree `/`, `/a`, `/a/b.mp4` meets `ValidFs`, so the exactness lemma applies to ordinary directory trees |
| `Discovery.FindVideoFilesExact` | main.py:135-138 | on a filesystem whose listing visits every existing path once and whose entries lie in existing directories (`ValidFs`), a non-file path yields exactly the regular video files below it, without duplicates, and a missing resolved path yields `[]` |
| `Discovery.FindVideoFiles` | main.py:123-138 | a regular file gives `[p]` exactly when its suffix is listed, else `[]`; anything else gives exactly the regular video files below it that the recursive listing visits |
| `Discovery.Screen` | main.py:235-243 | not-found is checked first, then not-a-file, then not-readable; a path passes only as a readable regular file |
| `Discovery.AdmittedMembers` | main.py:232-244 | a path survives validation exactly when it is an input, a regular file and readable |
| `Discovery.RejectionsExplained` | main.py:235-243 | each rejection names an input and the first check it failed |
| `Discovery.EveryPathDecided` | main.py:232-244 | kept and rejected counts add up to the inputs, and every input that fails a check is reported with the first check it fails |
| `Discovery.RejectionsAppend` | main.py:232-244 | rejections are reported path by path in input order: validating `a + b` reports `a`'s rejections, then `b`'s |
| `Discovery.AdmittedAppend` | main.py:233-244 | validating `a + b` keeps what validating `a` and `b` separately keeps, so a rejection never stops later paths |
| `Discovery.ValidateSources` | main.py:231-244 | the loop returns the survivors and rejections in input order; the survivors are exactly the readable regular files among the inputs |
| `Monitor.StatusText` | main.py:214-223 | a known code gets one of the five labels (`Paused` for the paused code); any other code gets `Unknown (<code>)` |
| `Monitor.StatusTextDistinct` | main.py:216-222 | with distinct codes, each state gets its own label |
| `Monitor.UnknownLabelIsNotKnown` | main.py:223 | an `Unknown (...)` label is never one of the five known labels |
| `Monitor.BytesTransferred` | main.py:303-306 | a sample without transfer info counts as 0 bytes |
| `Monitor.ProgressLine` | main.py:300-309 | a progress line carries the sample's id and elapsed time, the status label it prints (`LineLabel`: a known label or `Unknown (<code>)`), and 0 bytes when there is no transfer info |
| `Monitor.TerminalLabels` | main.py:311 | with distinct codes, a code is terminal exactly when its label is `Completed` or `Failed` |
| `Monitor.Decide` | main.py:311-322 | completed means success and failed means failure, checked before the deadline; otherwise past 300 s is a timeout; otherwise monitoring continues |
| `Monitor.MonitorReportUnique` | main.py:299-322 | the monitor's specification determines its verdict and its progress log |
| `Monitor.MonitorStopsAtFirstDecision` | main.py:299-322 | monitoring reads up to and including the first deciding sample, and that sample's decision is the verdict |
| `Monitor.MonitorTransfer` | main.py:299-322 | one progress line per sample read; stops at the first terminal or overdue sample with its verdict; otherwise reads the whole stream and reports how it ended |
| `Uploader.Connected` | main.py:204-208 | an existing client is kept; otherwise one bound to the daemon address exists exactly when it could be created |
| `Uploader.NoSubmissionWithoutCredentials` | main.py:272-286 | a real run connects first, checks credentials only once connected, and never starts a transfer with a credential missing |
| `Uploader.VideoUploader.constructor` | main.py:95-107 | no client yet; the daemon address (default `localhost:55002`) and `create_dir` (default true) as given; configuration read from the environment with its defaults |
| `Uploader.VideoUploader.Connect` | main.py:202-212 | a second `connect` is a no-op; the first creates the client when possible; failure ends the run |
| `Uploader.VideoUploader.SubmitTransfer` | main.py:269-331 | connect, then check credentials, then start the transfer, then monitor; each failure ends the run at that stage |
| `Uploader.VideoUploader.UploadVideos` | main.py:225-275 | empty input returns before any document is built; rejections are reported in order; no survivors means no document; the document lists exactly the survivors; a dry run returns without connecting or checking credentials; a real run follows `SubmissionReport` |

## Left out

- gRPC stub creation, the `StartTransfer` and `MonitorTransfers` calls, and
  the protobuf messages are not modelled. That covers `TransferRequest` with
  `FILE_REGULAR`, the default `TransferConfig` and the registration filter on
  the transfer id. Their results are parameters.
- The numeric values of the SDK's status enumeration are not part of this
  model, so `StatusCodes` is a parameter.
- The `getattr` fallbacks (`"unknown"` id, status `-1`) are not modelled,
  because protobuf messages always carry those fields.
- `Path.resolve()`, symbolic links and relative paths are not modelled. Paths
  are taken as already absolute and resolved.
- The traversal order of `rglob` is a given (`FileSystem.walk`), not derived.
- `os.path.getsize`, the megabyte arithmetic, `total_size` and the printed
  progress text are left out: they are floating point and console output.
  Progress lines keep the elapsed seconds, id, status code (printed as its label) and raw byte count.
- `time.time()` is replaced by integer elapsed seconds in each sample. The
  watchdog runs only when a sample arrives, as in the code.
- `.env` loading, `os.environ`, `argparse`, `main()`, the `sys.path` set-up,
  the SDK import guard, `json.dumps` and `show_transfer_spec` are left out.
  `main()`'s own exit on an empty discovery result is not modelled either.
- The trailing-slash hint printed after a transfer error (main.py:327-329) is
  not modelled. The error message itself is kept: in `TransferError` when
  `StartTransfer` raises, and in the verdict `StreamBroken` when the
  monitoring stream raises. Both end the run with `sys.exit(1)`
  (main.py:324-331).
- Discovery.BaseName: a path ending in `/` has an empty name here, whereas
  `pathlib` first drops trailing slashes. Discovery and validation only see
  paths without a trailing slash, so no result differs.

=== FILE: config.dfy ===
/**
 * The uploader's configuration, read once from the process environment when a
 * `VideoUploader` is constructed (main.py, `__init__`).  The environment is a
 * parameter here: a map from variable names to values.
 */
module Config {
  import opened Wrappers

  const ApiKeyVar := "IBMCLOUD_API_KEY"
  const BucketVar := "IBMCLOUD_BUCKET"
  const InstanceIdVar := "IBMCLOUD_COS_INSTANCE_ID"
  const EndpointVar := "IBMCLOUD_COS_ENDPOINT"
  const RemoteHostVar := "ASPERA_REMOTE_HOST"
  const DestinationVar := "COS_DESTINATION"

  /** Aspera transfer-network entry point used when ASPERA_REMOTE_HOST is unset (Frankfurt). */
  const DefaultRemoteHost := "ats-sl-fra.aspera.io"
  /** Object-storage key prefix used when COS_DESTINATION is unset. */
  const DefaultDestination := "/aspera-uploads"

  /**
   * The four credential fields are `None` when their variable is unset (Python's
   * `os.environ.get(name)`); the two optional ones fall back to their defaults.
   */
  datatype UploadConfig = UploadConfig(
    apiKey: Option<string>,
    bucket: Option<string>,
    serviceInstanceId: Option<string>,
    serviceEndpoint: Option<string>,
    remoteHost: string,
    destination: string,
    createDir: bool)

  /** `os.environ.get(name)`. */
  function EnvGet(env: map<string, string>, name: string): (r: Option<string>)
    ensures r.Some? <==> name in env
    ensures r.Some? ==> r.value == env[name]
  {
    if name in env then Some(env[name]) else None
  }

  /** The configuration a `VideoUploader(create_dir=createDir)` reads from `env`. */
  function ConfigFromEnv(env: map<string, string>, createDir: bool): (c: UploadConfig)
    ensures c.apiKey == EnvGet(env, ApiKeyVar) && c.bucket == EnvGet(env, BucketVar)
    ensures c.serviceInstanceId == EnvGet(env, InstanceIdVar)
    ensures c.serviceEndpoint == EnvGet(env, EndpointVar)
    ensures RemoteHostVar !in env ==> c.remoteHost == DefaultRemoteHost
    ensures RemoteHostVar in env ==> c.remoteHost == env[RemoteHostVar]
    ensures DestinationVar !in env ==> c.destination == DefaultDestination
    ensures DestinationVar in env ==> c.destination == env[DestinationVar]
    ensures c.createDir == createDir
  {
    UploadConfig(
      EnvGet(env, ApiKeyVar), EnvGet(env, BucketVar), EnvGet(env, InstanceIdVar), EnvGet(env, EndpointVar),
      EnvGet(env, RemoteHostVar).GetOr(DefaultRemoteHost),
      EnvGet(env, DestinationVar).GetOr(DefaultDestination),
      createDir)
  }
}

=== FILE: discovery.dfy ===
/**
 * Finding the video files to upload (main.py, `find_video_files`) and the
 * validation pass that keeps only existing, regular, readable files
 * (main.py, `upload_videos`, the loop over `file_paths`).
 *
 * The filesystem is a value: the kind of every existing path, the set of
 * paths the process may read, and `walk`, the order in which a recursive
 * listing (`Path.rglob("*")`) visits paths.  Paths are already absolute and
 * resolved, so `Path.resolve()` leaves them unchanged.
 */
module Discovery {
  import opened Wrappers
  import opened Text

  type Path = string

  datatype Kind = RegularFile | Directory | Special

  datatype FileSystem = FileSystem(walk: seq<Path>, kinds: map<Path, Kind>, readable: set<Path>)

  predicate Exists(fs: FileSystem, p: Path) {
    p in fs.kinds
  }

  predicate IsFile(fs: FileSystem, p: Path) {
    p in fs.kinds && fs.kinds[p] == RegularFile
  }

  predicate IsReadable(fs: FileSystem, p: Path) {
    p in fs.readable
  }

  /** The accepted suffixes, compared exactly: `.Mp4` is not among them. */
  const VideoTypes: seq<string> := [".mp4", ".mov", ".MP4", ".MOV"]

  /** The last path component (`PurePath.name`): everything after the last `/`. */
  function BaseName(p: Path): (r: string)
    ensures |r| <= |p| && r == p[|p| - |r|..]
    ensures forall i | 0 <= i < |r| :: r[i] != '/'
    ensures |r| < |p| ==> p[|p| - |r| - 1] == '/'
  {
    if |p| == 0 || p[|p| - 1] == '/' then [] else BaseName(p[..|p| - 1]) + [p[|p| - 1]]
  }

  /** `name.rfind('.')`: the index of the last dot, or -1 when there is none. */
  function LastDot(name: string): (i: int)
    ensures -1 <= i < |name|
    ensures i >= 0 ==> name[i] == '.'
    ensures forall j | i < j < |name| :: name[j] != '.'
  {
    if |name| == 0 then -1
    else if name[|name| - 1] == '.' then |name| - 1
    else LastDot(name[..|name| - 1])
  }

  /**
   * `PurePath.suffix`: from the last dot of the name to its end, provided the
   * dot is neither the first nor the last character of the name; else empty.
   */
  function Suffix(p: Path): (r: string)
    ensures r == "" || (|r| >= 2 && r[0] == '.' && EndsWith(p, r))
  {
    var name := BaseName(p);
    var i := LastDot(name);
    if 0 < i < |name| - 1 then name[i..] else ""
  }

  /** `p.suffix in video_types`. */
  predicate IsVideo(p: Path) {
    Suffix(p) in VideoTypes
  }

  /** A path accepted as a video ends with one of the listed extensions. */
  lemma VideoExtension(p: Path)
    requires IsVideo(p)
    ensures exists ext | ext in VideoTypes :: EndsWith(p, ext)
  {
    assert EndsWith(p, Suffix(p));
  }

  lemma {:induction false} BaseNameAppend(p: Path, q: string)
    requires forall i | 0 <= i < |q| :: q[i] != '/'
    ensures BaseName(p + q) == BaseName(p) + q
  {
    if q != [] {
      var q' := q[..|q| - 1];
      assert (p + q)[..|p + q| - 1] == p + q';
      BaseNameAppend(p, q');
    } else {
      assert p + q == p;
    }
  }

  lemma {:induction false} LastDotAppend(name: string, q: string)
    requires forall i | 0 <= i < |q| :: q[i] != '.'
    ensures LastDot(name + q) == LastDot(name)
  {
    if q != [] {
      var q' := q[..|q| - 1];
      assert (name + q)[..|name + q| - 1] == name + q';
      LastDotAppend(name, q');
    } else {
      assert name + q == name;
    }
  }

  /** The last dot of `b + ext` is the dot that starts `ext`. */
  lemma {:induction false} LastDotAtExtension(b: string, ext: string)
    requires |ext| >= 1 && ext[0] == '.'
    requires forall i | 1 <= i < |ext| :: ext[i] != '.'
    ensures LastDot(b + ext) == |b|
  {
    var rest := ext[1..];
    assert b + ext == (b + ".") + rest;
    LastDotAppend(b + ".", rest);
    assert LastDot(b + ".") == |b|;
  }

  /**
   * A file `stem + ext`, where `ext` is a dot followed by at least one
   * character and no further dot or slash, and `stem` names something before
   * it, has suffix `ext`; so it is a video exactly when `ext` is listed.
   */
  lemma {:induction false} SuffixOfName(stem: Path, ext: string)
    requires |stem| > 0 && stem[|stem| - 1] != '/'
    requires |ext| >= 2 && ext[0] == '.'
    requires forall i | 1 <= i < |ext| :: ext[i] != '.' && ext[i] != '/'
    ensures Suffix(stem + ext) == ext
    ensures IsVideo(stem + ext) <==> ext in VideoTypes
  {
    var b := BaseName(stem);
    assert |b| > 0 by {
      assert b == BaseName(stem[..|stem| - 1]) + [stem[|stem| - 1]];
    }
    BaseNameAppend(stem, ext);
    LastDotAtExtension(b, ext);
    var name := b + ext;
    assert BaseName(stem + ext) == name && LastDot(name) == |b|;
    assert name[|b|..] == ext;
  }

  /** The suffix test is case-sensitive: a `.Mp4` file is not a video. */
  lemma MixedCaseRejected(stem: Path)
    requires |stem| > 0 && stem[|stem| - 1] != '/'
    ensures !IsVideo(stem + ".Mp4")
  {
    SuffixOfName(stem, ".Mp4");
  }

  /**
   * A hidden file whose name is only an extension, such as `dir/.mp4`, has
   * no suffix (its only dot comes first), so discovery skips it.
   */
  lemma {:induction false} DotFileHasNoSuffix(dir: Path, ext: string)
    requires |ext| >= 1 && ext[0] == '.'
    requires forall i | 1 <= i < |ext| :: ext[i] != '.' && ext[i] != '/'
    ensures Suffix(dir + "/" + ext) == ""
    ensures !IsVideo(dir + "/" + ext)
  {
    var p := dir + "/" + ext;
    BaseNameAfterSlash(dir, ext);
    LastDotLeading(ext);
    assert BaseName(p) == ext && LastDot(ext) == 0;
  }

  /** A name whose only dot is its first character has its last dot at index 0. */
  lemma LastDotLeading(ext: string)
    requires |ext| >= 1 && ext[0] == '.'
    requires forall i | 1 <= i < |ext| :: ext[i] != '.'
    ensures LastDot(ext) == 0
  {
    var rest := ext[1..];
    assert ext == "." + rest;
    LastDotAppend(".", rest);
  }

  /** The name of `dir/q` is `q` when `q` holds no slash. */
  lemma BaseNameAfterSlash(dir: Path, q: string)
    requires forall i | 0 <= i < |q| :: q[i] != '/'
    ensures BaseName(dir + "/" + q) == q
  {
    var d := dir + "/";
    BaseNameAppend(d, q);
    assert BaseName(d) == [];
  }

  /** `dir` as a folder prefix, ending in exactly the `/` that separates it from its entries. */
  function DirPrefix(dir: Path): string {
    if EndsWith(dir, "/") then dir else dir + "/"
  }

  /** `x` lies somewhere below directory `dir`. */
  predicate Beneath(dir: Path, x: Path) {
    var d := DirPrefix(dir);
    |x| > |d| && StartsWith(x, d)
  }

  predicate NoDuplicates(s: seq<Path>) {
    forall i, j | 0 <= i < j < |s| :: s[i] != s[j]
  }

  /** The regular video files below `root` among `entries`, in the order of `entries`. */
  function ScanTree(fs: FileSystem, root: Path, entries: seq<Path>): (r: seq<Path>)
    ensures |r| <= |entries|
    ensures forall x :: x in r <==> x in entries && Beneath(root, x) && IsFile(fs, x) && IsVideo(x)
  {
    if entries == [] then []
    else
      var x := entries[0];
      (if Beneath(root, x) && IsVideo(x) && IsFile(fs, x) then [x] else []) + ScanTree(fs, root, entries[1..])
  }

  /** A listing that names every path once yields every video once. */
  lemma {:induction false} ScanTreeNoDuplicates(fs: FileSystem, root: Path, entries: seq<Path>)
    requires NoDuplicates(entries)
    ensures NoDuplicates(ScanTree(fs, root, entries))
  {
    if entries != [] {
      var rest := entries[1..];
      assert NoDuplicates(rest) by {
        forall i, j | 0 <= i < j < |rest| ensures rest[i] != rest[j] {
          assert rest[i] == entries[i + 1] && rest[j] == entries[j + 1];
        }
      }
      ScanTreeNoDuplicates(fs, root, rest);
      assert entries[0] !in rest by {
        forall k | 0 <= k < |rest| ensures rest[k] != entries[0] {
          assert rest[k] == entries[k + 1];
        }
      }
    }
  }

  /**
   * `find_video_files(p)`: a regular file is returned alone when it has a
   * listed suffix and dropped otherwise; anything else is scanned as a
   * directory, giving every regular file below it with a listed suffix.
   */
  function FindVideoFiles(fs: FileSystem, p: Path): (r: seq<Path>)
    ensures IsFile(fs, p) ==> (r == [p] <==> IsVideo(p)) && (r == [] <==> !IsVideo(p))
    ensures !IsFile(fs, p) ==>
              forall x :: x in r <==> x in fs.walk && Beneath(p, x) && IsFile(fs, x) && IsVideo(x)
  {
    if IsFile(fs, p) then (if IsVideo(p) then [p] else [])
    else ScanTree(fs, p, fs.walk)
  }

  /** A resolved absolute path: the root, or a rooted path without a trailing slash. */
  predicate Resolved(d: Path) {
    d == "/" || (|d| > 1 && d[0] == '/' && d[|d| - 1] != '/')
  }

  /**
   * A filesystem as the operating system presents it: the recursive listing
   * visits every existing path exactly once, and whatever exists below a
   * path has that path as an existing directory above it.
   */
  ghost predicate ValidFs(fs: FileSystem) {
    && NoDuplicates(fs.walk)
    && (forall x :: x in fs.walk <==> x in fs.kinds)
    && (forall d, x | Resolved(d) && x in fs.kinds && Beneath(d, x) :: d in fs.kinds && fs.kinds[d] == Directory)
  }

  /** The plain tree `/`, `/a`, `/a/b.mp4` is such a filesystem. */
  lemma SmallTreeIsValid()
    ensures ValidFs(FileSystem(["/", "/a", "/a/b.mp4"], map["/" := Directory, "/a" := Directory, "/a/b.mp4" := RegularFile], {}))
  {
    var fs := FileSystem(["/", "/a", "/a/b.mp4"], map["/" := Directory, "/a" := Directory, "/a/b.mp4" := RegularFile], {});
    forall d, x | Resolved(d) && x in fs.kinds && Beneath(d, x)
      ensures d in fs.kinds && fs.kinds[d] == Directory
    {
      if d != "/" {
        var dp := d + "/";
        assert DirPrefix(d) == dp;
        assert x[..|dp|] == dp && x[|d|] == '/';
        assert x == "/a/b.mp4" && |d| == 2;
        assert d == x[..2] == "/a";
      }
    }
  }

  /**
   * On a real filesystem, a path that is not a regular file yields exactly
   * the regular video files below it, each once; a path that does not exist
   * yields nothing.
   */
  lemma FindVideoFilesExact(fs: FileSystem, p: Path)
    requires ValidFs(fs)
    ensures !IsFile(fs, p) ==> forall x :: x in FindVideoFiles(fs, p) <==> Beneath(p, x) && IsFile(fs, x) && IsVideo(x)
    ensures NoDuplicates(FindVideoFiles(fs, p))
    ensures Resolved(p) && !Exists(fs, p) ==> FindVideoFiles(fs, p) == []
  {
    if !IsFile(fs, p) {
      ScanTreeNoDuplicates(fs, p, fs.walk);
      var r := FindVideoFiles(fs, p);
      assert r != [] ==> r[0] in r;
    }
  }

  /** Why the validation pass rejects a path; the checks are made in this order. */
  datatype RejectReason = NotFound | NotAFile | NotReadable

  datatype Rejection = Rejection(path: Path, reason: RejectReason)

  /** The first check `p` fails, if any. */
  function Screen(fs: FileSystem, p: Path): (r: Option<RejectReason>)
    ensures r == Some(NotFound) <==> !Exists(fs, p)
    ensures r == Some(NotAFile) <==> Exists(fs, p) && !IsFile(fs, p)
    ensures r == Some(NotReadable) <==> IsFile(fs, p) && !IsReadable(fs, p)
    ensures r == None <==> IsFile(fs, p) && IsReadable(fs, p)
  {
    if !Exists(fs, p) then Some(NotFound)
    else if !IsFile(fs, p) then Some(NotAFile)
    else if !IsReadable(fs, p) then Some(NotReadable)
    else None
  }

  /** The paths the validation pass keeps, in input order. */
  function Admitted(fs: FileSystem, paths: seq<Path>): seq<Path> {
    if paths == [] then []
    else
      var last := paths[|paths| - 1];
      Admitted(fs, paths[..|paths| - 1]) + (if Screen(fs, last).None? then [last] else [])
  }

  /** The rejections the validation pass reports, in input order. */
  function Rejections(fs: FileSystem, paths: seq<Path>): seq<Rejection> {
    if paths == [] then []
    else
      var last := paths[|paths| - 1];
      var s := Screen(fs, last);
      Rejections(fs, paths[..|paths| - 1]) + (if s.Some? then [Rejection(last, s.value)] else [])
  }

  /** A path survives exactly when it is among the inputs, a regular file and readable. */
  lemma {:induction false} AdmittedMembers(fs: FileSystem, paths: seq<Path>)
    ensures forall x :: x in Admitted(fs, paths) <==> x in paths && IsFile(fs, x) && IsReadable(fs, x)
  {
    if paths != [] {
      var init := paths[..|paths| - 1];
      AdmittedMembers(fs, init);
      assert paths == init + [paths[|paths| - 1]];
    }
  }

  /** Every rejection names an input and the first check it failed. */
  lemma {:induction false} RejectionsExplained(fs: FileSystem, paths: seq<Path>)
    ensures forall r | r in Rejections(fs, paths) :: r.path in paths && Screen(fs, r.path) == Some(r.reason)
  {
    if paths != [] {
      var init := paths[..|paths| - 1];
      RejectionsExplained(fs, init);
      assert paths == init + [paths[|paths| - 1]];
    }
  }

  /**
   * Every input is either kept or rejected, never both and never neither:
   * the counts add up, and every input that fails a check is reported with
   * the first check it fails.
   */
  lemma {:induction false} EveryPathDecided(fs: FileSystem, paths: seq<Path>)
    ensures |Admitted(fs, paths)| + |Rejections(fs, paths)| == |paths|
    ensures forall i | 0 <= i < |paths| && Screen(fs, paths[i]).Some? ::
              Rejection(paths[i], Screen(fs, paths[i]).value) in Rejections(fs, paths)
  {
    if paths != [] {
      var init := paths[..|paths| - 1];
      EveryPathDecided(fs, init);
      forall i | 0 <= i < |paths| - 1 && Screen(fs, paths[i]).Some?
        ensures Rejection(paths[i], Screen(fs, paths[i]).value) in Rejections(fs, paths)
      {
        assert paths[i] == init[i];
      }
    }
  }

  /**
   * The pass works path by path: validating `a + b` keeps what validating
   * `a` and `b` separately keeps, so a rejected path never stops the paths
   * after it from being checked.
   */
  lemma {:induction false} AdmittedAppend(fs: FileSystem, a: seq<Path>, b: seq<Path>)
    ensures Admitted(fs, a + b) == Admitted(fs, a) + Admitted(fs, b)
  {
    if b == [] {
      assert a + b == a;
    } else {
      var b' := b[..|b| - 1];
      assert (a + b)[..|a + b| - 1] == a + b';
      AdmittedAppend(fs, a, b');
    }
  }

  /** Rejections are reported path by path, in input order. */
  lemma {:induction false} RejectionsAppend(fs: FileSystem, a: seq<Path>, b: seq<Path>)
    ensures Rejections(fs, a + b) == Rejections(fs, a) + Rejections(fs, b)
  {
    if b == [] {
      assert a + b == a;
    } else {
      var b' := b[..|b| - 1];
      assert (a + b)[..|a + b| - 1] == a + b';
      RejectionsAppend(fs, a, b');
    }
  }

  /**
   * The validation loop: each path is checked for existence, then for being
   * a regular file, then for readability; the first failed check is reported
   * and the path skipped, the others are kept in order.
   */
  method ValidateSources(fs: FileSystem, paths: seq<Path>) returns (valid: seq<Path>, rejections: seq<Rejection>)
    ensures valid == Admitted(fs, paths) && rejections == Rejections(fs, paths)
    ensures forall x :: x in valid <==> x in paths && IsFile(fs, x) && IsReadable(fs, x)
    ensures |valid| + |rejections| == |paths|
  {
    valid, rejections := [], [];
    for i := 0 to |paths|
      invariant valid == Admitted(fs, paths[..i])
      invariant rejections == Rejections(fs, paths[..i])
    {
      var p := paths[i];
      assert paths[..i + 1][..i] == paths[..i];
      if !Exists(fs, p) {
        rejections := rejections + [Rejection(p, NotFound)];
        continue;
      }
      if !IsFile(fs, p) {
        rejections := rejections + [Rejection(p, NotAFile)];
        continue;
      }
      if !IsReadable(fs, p) {
        rejections := rejections + [Rejection(p, NotReadable)];
        continue;
      }
      valid := valid + [p];
    }
    assert paths[..|paths|] == paths;
    AdmittedMembers(fs, paths);
    EveryPathDecided(fs, paths);
  }
}

=== FILE: environment.dfy ===
/**
 * The credential check made immediately before a real upload
 * (main.py, `_validate_environment`): every required variable whose value is
 * unset or empty is reported, in a fixed order.
 */
module Environment {
  import opened Wrappers
  import opened Config

  /** Python's falsiness of an optional string: `None` or `""`. */
  predicate Blank(v: Option<string>) {
    v.None? || v == Some("")
  }

  /** The required variables with their configured values, in the order they are checked. */
  function RequiredVars(c: UploadConfig): (r: seq<(string, Option<string>)>)
    ensures |r| == 4
    ensures forall i, j | 0 <= i < j < |r| :: r[i].0 != r[j].0
  {
    [(ApiKeyVar, c.apiKey), (BucketVar, c.bucket),
     (InstanceIdVar, c.serviceInstanceId), (EndpointVar, c.serviceEndpoint)]
  }

  /** The names of the blank entries of `vars`, in order. */
  function MissingNames(vars: seq<(string, Option<string>)>): (r: seq<string>)
    ensures |r| <= |vars|
    ensures forall x :: x in r ==> exists i :: 0 <= i < |vars| && vars[i].0 == x && Blank(vars[i].1)
  {
    if vars == [] then []
    else (if Blank(vars[0].1) then [vars[0].0] else []) + MissingNames(vars[1..])
  }

  /** A name is reported exactly when some entry with that name is blank. */
  lemma {:induction false} MissingNamesComplete(vars: seq<(string, Option<string>)>, i: nat)
    requires i < |vars| && Blank(vars[i].1)
    ensures vars[i].0 in MissingNames(vars)
  {
    if i > 0 {
      MissingNamesComplete(vars[1..], i - 1);
    }
  }

  /** Nothing is reported exactly when every entry is set and non-empty. */
  lemma {:induction false} MissingNamesEmpty(vars: seq<(string, Option<string>)>)
    ensures MissingNames(vars) == [] <==> forall i | 0 <= i < |vars| :: !Blank(vars[i].1)
  {
    if vars != [] {
      MissingNamesEmpty(vars[1..]);
      assert forall i | 1 <= i < |vars| :: vars[i] == vars[1..][i - 1];
    }
  }

  /** Read from the environment, every required entry pairs a name with that variable's value. */
  lemma RequiredVarsFromEnv(env: map<string, string>, createDir: bool)
    ensures forall i | 0 <= i < 4 ::
              RequiredVars(ConfigFromEnv(env, createDir))[i].1 == EnvGet(env, RequiredVars(ConfigFromEnv(env, createDir))[i].0)
  {
  }

  /**
   * The variables missing from configuration `c`: each required name is
   * reported exactly when its value is blank, and nothing else is reported.
   */
  function MissingVariables(c: UploadConfig): (r: seq<string>)
    ensures ApiKeyVar in r <==> Blank(c.apiKey)
    ensures BucketVar in r <==> Blank(c.bucket)
    ensures InstanceIdVar in r <==> Blank(c.serviceInstanceId)
    ensures EndpointVar in r <==> Blank(c.serviceEndpoint)
    ensures forall x | x in r :: x == ApiKeyVar || x == BucketVar || x == InstanceIdVar || x == EndpointVar
  {
    var v0 := RequiredVars(c);
    var v1, v2, v3 := v0[1..], v0[2..], v0[3..];
    assert v1[1..] == v2 && v2[1..] == v3 && v3[1..] == [];
    assert MissingNames(v3) == (if Blank(c.serviceEndpoint) then [EndpointVar] else []);
    assert MissingNames(v2) == (if Blank(c.serviceInstanceId) then [InstanceIdVar] else []) + MissingNames(v3);
    assert MissingNames(v1) == (if Blank(c.bucket) then [BucketVar] else []) + MissingNames(v2);
    MissingNames(v0)
  }

  /**
   * The missing list is the four names in their fixed order, each kept
   * exactly when its value is blank.
   */
  lemma MissingVariablesExact(c: UploadConfig)
    ensures MissingVariables(c)
            == (if Blank(c.apiKey) then [ApiKeyVar] else [])
             + (if Blank(c.bucket) then [BucketVar] else [])
             + (if Blank(c.serviceInstanceId) then [InstanceIdVar] else [])
             + (if Blank(c.serviceEndpoint) then [EndpointVar] else [])
  {
    var v0 := RequiredVars(c);
    var v1, v2, v3 := v0[1..], v0[2..], v0[3..];
    assert v1[1..] == v2 && v2[1..] == v3 && v3[1..] == [];
    assert MissingNames(v3) == (if Blank(c.serviceEndpoint) then [EndpointVar] else []);
    assert MissingNames(v2) == (if Blank(c.serviceInstanceId) then [InstanceIdVar] else []) + MissingNames(v3);
    assert MissingNames(v1) == (if Blank(c.bucket) then [BucketVar] else []) + MissingNames(v2);
  }

  /** With all four credentials blank, all four names are reported, not just the first. */
  lemma AllMissingReported(c: UploadConfig)
    requires Blank(c.apiKey) && Blank(c.bucket) && Blank(c.serviceInstanceId) && Blank(c.serviceEndpoint)
    ensures MissingVariables(c) == [ApiKeyVar, BucketVar, InstanceIdVar, EndpointVar]
  {
    MissingVariablesExact(c);
  }

  /** Outcome of `_validate_environment`: go on, or stop the run listing what is missing. */
  datatype EnvCheck = EnvOk | EnvMissing(names: seq<string>)

  /**
   * The check fails exactly when some credential is blank, and then reports
   * the missing names.
   */
  function ValidateEnvironment(c: UploadConfig): (r: EnvCheck)
    ensures r.EnvMissing? <==> MissingVariables(c) != []
    ensures r.EnvMissing? ==> r.names == MissingVariables(c)
  {
    var missing := MissingVariables(c);
    if missing != [] then EnvMissing(missing) else EnvOk
  }

  /** The check passes exactly when all four credentials are set and non-empty. */
  lemma ValidateEnvironmentPasses(c: UploadConfig)
    ensures ValidateEnvironment(c).EnvOk?
            <==> !Blank(c.apiKey) && !Blank(c.bucket) && !Blank(c.serviceInstanceId) && !Blank(c.serviceEndpoint)
  {
    var vars := RequiredVars(c);
    MissingNamesEmpty(vars);
    assert vars[0].1 == c.apiKey && vars[1].1 == c.bucket && vars[2].1 == c.serviceInstanceId && vars[3].1 == c.serviceEndpoint;
  }
}

=== FILE: monitor.dfy ===
/**
 * Interpreting the daemon's progress stream (main.py, `get_status_text` and
 * the monitor loop of `upload_videos`).  The stream is a finite, scripted
 * sequence of samples followed by how it ended; the seconds elapsed since
 * submission travel with each sample in place of the clock.
 */
module Monitor {
  import opened Wrappers
  import opened Text

  /**
   * The integer values the SDK assigns to its five named transfer states.
   * They are a parameter: the SDK's enumeration is not part of this model.
   */
  datatype StatusCodes = StatusCodes(queued: int, running: int, completed: int, failed: int, paused: int)

  /** Monitoring gives up after this many seconds without a terminal state. */
  const TimeoutSeconds := 300

  const StatusLabels: seq<string> := ["Queued", "Running", "Completed", "Failed", "Paused"]

  predicate KnownCode(codes: StatusCodes, code: int) {
    code in {codes.queued, codes.running, codes.completed, codes.failed, codes.paused}
  }

  predicate DistinctCodes(codes: StatusCodes) {
    && codes.queued != codes.running && codes.queued != codes.completed
    && codes.queued != codes.failed && codes.queued != codes.paused
    && codes.running != codes.completed && codes.running != codes.failed && codes.running != codes.paused
    && codes.completed != codes.failed && codes.completed != codes.paused
    && codes.failed != codes.paused
  }

  /**
   * The label of a status code: one of the five known labels, or
   * `Unknown (<code>)`.  The lookup table is a dictionary literal, so should
   * two names share a value the later entry wins; the checks run from the
   * last entry back.
   */
  function StatusText(codes: StatusCodes, code: int): (r: string)
    ensures KnownCode(codes, code) ==> r in StatusLabels
    ensures !KnownCode(codes, code) ==> r == "Unknown (" + IntToString(code) + ")"
    ensures code == codes.paused ==> r == "Paused"
  {
    if code == codes.paused then "Paused"
    else if code == codes.failed then "Failed"
    else if code == codes.completed then "Completed"
    else if code == codes.running then "Running"
    else if code == codes.queued then "Queued"
    else "Unknown (" + IntToString(code) + ")"
  }

  /** With distinct codes every state gets its own label. */
  lemma StatusTextDistinct(codes: StatusCodes)
    requires DistinctCodes(codes)
    ensures StatusText(codes, codes.queued) == "Queued"
    ensures StatusText(codes, codes.running) == "Running"
    ensures StatusText(codes, codes.completed) == "Completed"
    ensures StatusText(codes, codes.failed) == "Failed"
    ensures StatusText(codes, codes.paused) == "Paused"
  {
  }

  /** An unknown code is never confused with a known label. */
  lemma UnknownLabelIsNotKnown(code: int)
    ensures "Unknown (" + IntToString(code) + ")" !in StatusLabels
  {
  }

  datatype TransferInfo = TransferInfo(bytesTransferred: int)

  /** One message of the monitoring stream; `transferInfo` may be absent. */
  datatype Sample = Sample(transferId: string, status: int, transferInfo: Option<TransferInfo>, elapsed: nat)

  /** How the stream ended once its samples were exhausted. */
  datatype StreamEnd = Closed | Raised(message: string)

  datatype Stream = Stream(samples: seq<Sample>, end: StreamEnd)

  /**
   * The content of one progress line.  The line prints the label of
   * `status` (`LineLabel`); the code itself is kept here.
   */
  datatype Progress = Progress(elapsed: nat, transferId: string, status: int, bytesTransferred: int)

  /** How monitoring ended. */
  datatype Verdict = Succeeded | TransferFailed | TimedOut | StreamClosed | StreamBroken(message: string)

  /** Bytes reported by a sample: 0 when it carries no transfer info. */
  function BytesTransferred(s: Sample): (b: int)
    ensures s.transferInfo.None? ==> b == 0
    ensures s.transferInfo.Some? ==> b == s.transferInfo.value.bytesTransferred
  {
    if s.transferInfo.Some? then s.transferInfo.value.bytesTransferred else 0
  }

  /**
   * The content of the progress line printed for sample `s`.  The codes are
   * what the line's label is rendered with (`LineLabel`); the line itself
   * keeps the raw status code.
   */
  function ProgressOf(codes: StatusCodes, s: Sample): Progress
  {
    Progress(s.elapsed, s.transferId, s.status, BytesTransferred(s))
  }

  /** The status label a progress line prints. */
  function LineLabel(codes: StatusCodes, p: Progress): string {
    StatusText(codes, p.status)
  }

  /**
   * The progress line for a sample carries its own id and elapsed time, its
   * status label, and 0 bytes when it has no transfer info.
   */
  lemma ProgressLine(codes: StatusCodes, s: Sample)
    ensures ProgressOf(codes, s).elapsed == s.elapsed && ProgressOf(codes, s).transferId == s.transferId
    ensures KnownCode(codes, s.status) ==> LineLabel(codes, ProgressOf(codes, s)) in StatusLabels
    ensures !KnownCode(codes, s.status) ==> LineLabel(codes, ProgressOf(codes, s)) == "Unknown (" + IntToString(s.status) + ")"
    ensures s.transferInfo.None? ==> ProgressOf(codes, s).bytesTransferred == 0
    ensures s.transferInfo.Some? ==> ProgressOf(codes, s).bytesTransferred == s.transferInfo.value.bytesTransferred
  {
  }

  /** Completed and failed are the terminal states. */
  predicate IsTerminal(codes: StatusCodes, code: int) {
    code == codes.completed || code == codes.failed
  }

  /** With distinct codes, a code is terminal exactly when it is labelled `Completed` or `Failed`. */
  lemma TerminalLabels(codes: StatusCodes, code: int)
    requires DistinctCodes(codes)
    ensures IsTerminal(codes, code) <==> StatusText(codes, code) == "Completed" || StatusText(codes, code) == "Failed"
  {
  }

  /**
   * Whether a sample ends monitoring, and how.  The terminal check comes
   * first: a completed sample is a success however late it arrives.
   */
  function Decide(codes: StatusCodes, s: Sample): (r: Option<Verdict>)
    ensures r == Some(Succeeded) <==> s.status == codes.completed
    ensures r == Some(TransferFailed) <==> s.status == codes.failed && s.status != codes.completed
    ensures r == Some(TimedOut) <==> !IsTerminal(codes, s.status) && s.elapsed > TimeoutSeconds
    ensures r.None? <==> !IsTerminal(codes, s.status) && s.elapsed <= TimeoutSeconds
  {
    if IsTerminal(codes, s.status) then
      Some(if s.status == codes.completed then Succeeded else TransferFailed)
    else if s.elapsed > TimeoutSeconds then Some(TimedOut)
    else None
  }

  predicate Decisive(v: Verdict) {
    v.Succeeded? || v.TransferFailed? || v.TimedOut?
  }

  /**
   * What monitoring `stream` reports: one progress line per sample read; no
   * sample before the last one read ends monitoring; a success, failure or
   * timeout is the verdict of the last sample read; otherwise the whole
   * stream was read and the verdict says how it ended.
   */
  predicate MonitorReport(codes: StatusCodes, stream: Stream, verdict: Verdict, log: seq<Progress>) {
    && |log| <= |stream.samples|
    && (forall i | 0 <= i < |log| :: log[i] == ProgressOf(codes, stream.samples[i]))
    && (forall i | 0 <= i < |log| - 1 :: Decide(codes, stream.samples[i]).None?)
    && (Decisive(verdict) ==> |log| > 0 && Decide(codes, stream.samples[|log| - 1]) == Some(verdict))
    && (!Decisive(verdict) ==>
          && |log| == |stream.samples|
          && (forall i | 0 <= i < |log| :: Decide(codes, stream.samples[i]).None?)
          && verdict == (if stream.end.Closed? then StreamClosed else StreamBroken(stream.end.message)))
  }

  /** The report is determined by the stream: at most one verdict and log satisfy it. */
  lemma MonitorReportUnique(codes: StatusCodes, stream: Stream, v1: Verdict, log1: seq<Progress>, v2: Verdict, log2: seq<Progress>)
    requires MonitorReport(codes, stream, v1, log1) && MonitorReport(codes, stream, v2, log2)
    ensures v1 == v2 && log1 == log2
  {
  }

  /**
   * A scripted stream whose first deciding sample is at index `k` is read up
   * to and including that sample, and the verdict is that sample's: a
   * completed transfer reports success even past the deadline, a running one
   * past the deadline times out.
   */
  lemma MonitorStopsAtFirstDecision(codes: StatusCodes, stream: Stream, k: nat, verdict: Verdict, log: seq<Progress>)
    requires k < |stream.samples| && Decide(codes, stream.samples[k]).Some?
    requires forall i | 0 <= i < k :: Decide(codes, stream.samples[i]).None?
    requires MonitorReport(codes, stream, verdict, log)
    ensures |log| == k + 1 && Some(verdict) == Decide(codes, stream.samples[k])
  {
  }

  /**
   * The monitor loop: every sample read yields a progress line; reading stops
   * at the first sample that is terminal or past the deadline, and otherwise
   * runs to the end of the stream, where a stream error surfaces.
   */
  method MonitorTransfer(codes: StatusCodes, stream: Stream) returns (verdict: Verdict, log: seq<Progress>)
    ensures MonitorReport(codes, stream, verdict, log)
  {
    log := [];
    var samples := stream.samples;
    for i := 0 to |samples|
      invariant |log| == i
      invariant forall k | 0 <= k < i :: log[k] == ProgressOf(codes, samples[k])
      invariant forall k | 0 <= k < i :: Decide(codes, samples[k]).None?
    {
      var s := samples[i];
      log := log + [ProgressOf(codes, s)];
      if s.status == codes.completed || s.status == codes.failed {
        verdict := if s.status == codes.completed then Succeeded else TransferFailed;
        assert Decide(codes, s) == Some(verdict);
        return;
      }
      if s.elapsed > TimeoutSeconds {
        verdict := TimedOut;
        assert Decide(codes, s) == Some(verdict);
        return;
      }
      assert Decide(codes, s).None?;
    }
    verdict := match stream.end
      case Closed => StreamClosed
      case Raised(m) => StreamBroken(m);
  }
}

=== FILE: text.dfy ===
/**
 * String helpers with Python's meaning: `str.startswith`, `str.endswith`,
 * `str.strip()` (no argument: strips whitespace as `str.isspace` defines it)
 * and `str(i)` for integers.
 */
module Text {

  predicate StartsWith(s: string, prefix: string) {
    |prefix| <= |s| && s[..|prefix|] == prefix
  }

  predicate EndsWith(s: string, suffix: string) {
    |suffix| <= |s| && s[|s| - |suffix|..] == suffix
  }

  /** `s.startswith(c)` for a one-character prefix `c`. */
  predicate StartsWithChar(s: string, c: char) {
    |s| > 0 && s[0] == c
  }

  /** `s.endswith(c)` for a one-character suffix `c`. */
  predicate EndsWithChar(s: string, c: char) {
    |s| > 0 && s[|s| - 1] == c
  }

  /** The one-character forms agree with the general ones. */
  lemma SingleCharAffixes(s: string, c: char)
    ensures StartsWithChar(s, c) <==> StartsWith(s, [c])
    ensures EndsWithChar(s, c) <==> EndsWith(s, [c])
  {
  }

  /** The characters Python's `str.isspace` accepts (Unicode White_Space as CPython tabulates it). */
  predicate IsSpace(c: char) {
    var n := c as int;
    || (0x09 <= n <= 0x0D)
    || (0x1C <= n <= 0x20)
    || n == 0x85 || n == 0xA0 || n == 0x1680
    || (0x2000 <= n <= 0x200A)
    || n == 0x2028 || n == 0x2029 || n == 0x202F || n == 0x205F || n == 0x3000
  }

  predicate AllSpace(s: string) {
    forall i | 0 <= i < |s| :: IsSpace(s[i])
  }

  /** `s.lstrip()`: the longest suffix of `s` that does not start with whitespace. */
  function LStrip(s: string): (r: string)
    ensures |r| <= |s| && r == s[|s| - |r|..]
    ensures AllSpace(s[..|s| - |r|])
    ensures |r| > 0 ==> !IsSpace(r[0])
  {
    if |s| > 0 && IsSpace(s[0]) then LStrip(s[1..]) else s
  }

  /** `s.rstrip()`: the longest prefix of `s` that does not end with whitespace. */
  function RStrip(s: string): (r: string)
    ensures |r| <= |s| && r == s[..|r|]
    ensures AllSpace(s[|r|..])
    ensures |r| > 0 ==> !IsSpace(r[|r| - 1])
  {
    if |s| > 0 && IsSpace(s[|s| - 1]) then RStrip(s[..|s| - 1]) else s
  }

  /** `s.strip()`. */
  function Strip(s: string): (r: string)
    ensures |r| <= |s|
    ensures |r| > 0 ==> !IsSpace(r[0]) && !IsSpace(r[|r| - 1])
  {
    RStrip(LStrip(s))
  }

  /** Stripping removes nothing when both ends are already non-whitespace. */
  lemma StripKeeps(s: string)
    requires |s| > 0 && !IsSpace(s[0]) && !IsSpace(s[|s| - 1])
    ensures Strip(s) == s
  {
  }

  /** A whitespace-only string strips to the empty string. */
  lemma StripAllSpace(s: string)
    requires AllSpace(s)
    ensures Strip(s) == ""
  {
  }

  /** The decimal digit for `d`. */
  function DigitChar(d: nat): (c: char)
    requires d < 10
    ensures '0' <= c <= '9'
    ensures c as int - '0' as int == d
  {
    ('0' as int + d) as char
  }

  predicate AllDigits(s: string) {
    forall i | 0 <= i < |s| :: '0' <= s[i] <= '9'
  }

  /** The number a string of decimal digits denotes, most significant digit first. */
  function DecimalValue(s: string): nat
    requires AllDigits(s)
  {
    if s == [] then 0
    else DecimalValue(s[..|s| - 1]) * 10 + (s[|s| - 1] as int - '0' as int)
  }

  /** The decimal representation of `n`, without leading zeros: its digits denote `n`. */
  function NatToString(n: nat): (r: string)
    ensures |r| >= 1 && AllDigits(r)
    ensures DecimalValue(r) == n
    ensures r[0] == '0' ==> n == 0
    ensures |r| > 1 ==> r[0] != '0'
  {
    if n < 10 then [DigitChar(n)]
    else
      var init := NatToString(n / 10);
      var r := init + [DigitChar(n % 10)];
      assert r[..|r| - 1] == init;
      r
  }

  /** Python's `str(i)` for an integer: a minus sign for negatives, then the digits of `|i|`. */
  function IntToString(i: int): (r: string)
    ensures |r| >= 1
    ensures i < 0 <==> r[0] == '-'
    ensures i < 0 ==> AllDigits(r[1..]) && DecimalValue(r[1..]) == -i
    ensures i >= 0 ==> AllDigits(r) && DecimalValue(r) == i
    ensures i < 0 ==> r == "-" + NatToString(-i)
    ensures i >= 0 ==> r == NatToString(i)
  {
    if i < 0 then
      var r := "-" + NatToString(-i);
      assert r[1..] == NatToString(-i);
      r
    else NatToString(i)
  }

  /** Different integers have different decimal texts. */
  lemma IntToStringInjective(i: int, j: int)
    requires IntToString(i) == IntToString(j)
    ensures i == j
  {
    var s := IntToString(i);
    if i < 0 {
      assert DecimalValue(s[1..]) == -i && DecimalValue(s[1..]) == -j;
    } else {
      assert DecimalValue(s) == i && DecimalValue(s) == j;
    }
  }

  /** A digit string without a leading zero denotes a positive number when it starts with a non-zero digit. */
  lemma {:induction false} LeadingDigitPositive(s: string)
    requires |s| >= 1 && AllDigits(s) && s[0] != '0'
    ensures DecimalValue(s) >= 1
  {
    if |s| > 1 {
      LeadingDigitPositive(s[..|s| - 1]);
    }
  }

  /**
   * Decimal text without leading zeros is canonical: two such strings that
   * denote the same number are the same string.
   */
  lemma {:induction false} DecimalCanonical(s: string, t: string)
    requires |s| >= 1 && AllDigits(s) && (|s| > 1 ==> s[0] != '0')
    requires |t| >= 1 && AllDigits(t) && (|t| > 1 ==> t[0] != '0')
    requires DecimalValue(s) == DecimalValue(t)
    ensures s == t
  {
    var si, ti := s[..|s| - 1], t[..|t| - 1];
    if |si| > 0 { LeadingDigitPositive(si); }
    if |ti| > 0 { LeadingDigitPositive(ti); }
    assert s[|s| - 1] == t[|t| - 1] && DecimalValue(si) == DecimalValue(ti);
    if |si| > 0 && |ti| > 0 {
      DecimalCanonical(si, ti);
      assert s == si + [s[|s| - 1]] && t == ti + [t[|t| - 1]];
    } else {
      assert |si| == 0 && |ti| == 0;
    }
  }
}

=== FILE: transfer_spec.dfy ===
/**
 * Construction of the Aspera TransferSpecV2 document that asks the transfer
 * daemon to send local files to an IBM Cloud Object Storage bucket
 * (main.py, `create_transfer_spec`).  The document is modelled as nested
 * records with the same sections and keys as the JSON it serialises to.
 */
module TransferSpecs {
  import opened Wrappers
  import opened Text
  import opened Config

  const HttpScheme := "http://"
  const HttpsScheme := "https://"

  /** The transfer direction: always an upload. */
  const SendDirection := "send"
  /** The title every transfer carries. */
  const TransferTitle := "video file upload"

  predicate HasScheme(url: string) {
    StartsWith(url, HttpScheme) || StartsWith(url, HttpsScheme)
  }

  /**
   * The endpoint with a URL scheme: a missing or empty endpoint stays empty,
   * one with `http://` or `https://` is kept, anything else gets `https://`.
   */
  function NormalizeEndpoint(endpoint: Option<string>): (r: string)
    ensures endpoint.None? || endpoint == Some("") ==> r == ""
    ensures endpoint.Some? && HasScheme(endpoint.value) ==> r == endpoint.value
    ensures endpoint.Some? && endpoint.value != "" && !HasScheme(endpoint.value) ==> r == HttpsScheme + endpoint.value
    ensures r == "" || HasScheme(r)
    ensures EndsWith(r, endpoint.GetOr(""))
  {
    var e := endpoint.GetOr("");
    if e != "" && !HasScheme(e) then HttpsScheme + e else e
  }

  /** Normalising an endpoint a second time changes nothing. */
  lemma EndpointIdempotent(endpoint: Option<string>)
    ensures NormalizeEndpoint(Some(NormalizeEndpoint(endpoint))) == NormalizeEndpoint(endpoint)
  {
  }

  predicate SlashWrapped(s: string) {
    StartsWithChar(s, '/') && EndsWithChar(s, '/')
  }

  /**
   * `s` with a `/` in front unless it already starts with one
   * (`s.startswith("/")`, written with `StartsWithChar`; `SingleCharAffixes`
   * shows the two agree).
   */
  function LeadingSlash(s: string): (r: string)
    ensures StartsWithChar(r, '/')
    ensures if StartsWithChar(s, '/') then r == s else r == "/" + s
  {
    if StartsWithChar(s, '/') then s else "/" + s
  }

  /**
   * `s` with a `/` at the back unless it already ends with one
   * (`s.endswith("/")`, written with `EndsWithChar`; see `SingleCharAffixes`).
   */
  function TrailingSlash(s: string): (r: string)
    ensures EndsWithChar(r, '/')
    ensures if EndsWithChar(s, '/') then r == s else r == s + "/"
    ensures StartsWithChar(s, '/') ==> StartsWithChar(r, '/')
  {
    if EndsWithChar(s, '/') then s else s + "/"
  }

  /** The text `create_transfer_spec` strips: `(destination or "/")`. */
  function DestinationText(destination: Option<string>): string {
    if destination.None? || destination == Some("") then "/" else destination.value
  }

  /**
   * The destination prefix in folder form: a missing or empty value stands for
   * `/`, surrounding whitespace is stripped, and a `/` is added at the front
   * and at the back when absent.
   */
  function NormalizeDestination(destination: Option<string>): (r: string)
    ensures SlashWrapped(r)
    ensures |r| <= |Strip(DestinationText(destination))| + 2
  {
    TrailingSlash(LeadingSlash(Strip(DestinationText(destination))))
  }

  /**
   * The result is the stripped text itself, with a `/` added in front only
   * when it lacks one and at the back only when it lacks one.
   */
  lemma DestinationFraming(destination: Option<string>)
    ensures var t := Strip(DestinationText(destination));
            var r := NormalizeDestination(destination);
            && (StartsWithChar(t, '/') && EndsWithChar(t, '/') ==> r == t)
            && (!StartsWithChar(t, '/') && EndsWithChar(t, '/') ==> r == "/" + t)
            && (StartsWithChar(t, '/') && !EndsWithChar(t, '/') ==> r == t + "/")
            && (!StartsWithChar(t, '/') && !EndsWithChar(t, '/') && t != "" ==> r == "/" + t + "/")
            && (t == "" ==> r == "/")
  {
    var t := Strip(DestinationText(destination));
    var l := LeadingSlash(t);
    assert NormalizeDestination(destination) == TrailingSlash(l);
    if t == "" {
      assert l == "/";
    } else if !StartsWithChar(t, '/') {
      assert l == "/" + t;
      assert l[|l| - 1] == t[|t| - 1];
      assert EndsWithChar(l, '/') <==> EndsWithChar(t, '/');
    } else {
      assert l == t;
    }
  }

  /** A missing, empty or whitespace-only destination is the bucket root `/`. */
  lemma DestinationBlankIsRoot(destination: Option<string>)
    requires destination.None? || AllSpace(destination.value)
    ensures NormalizeDestination(destination) == "/"
  {
  }

  /** A destination already in folder form is left as it is. */
  lemma {:induction false} DestinationKeepsFolder(s: string)
    requires SlashWrapped(s)
    ensures NormalizeDestination(Some(s)) == s
  {
    assert DestinationText(Some(s)) == s;
    StripKeeps(s);
    assert LeadingSlash(s) == s;
  }

  /** Normalising a destination a second time changes nothing. */
  lemma {:induction false} DestinationIdempotent(destination: Option<string>)
    ensures NormalizeDestination(Some(NormalizeDestination(destination))) == NormalizeDestination(destination)
  {
    DestinationKeepsFolder(NormalizeDestination(destination));
  }

  /** A bare name such as `uploads` gets both slashes: `/uploads/`. */
  lemma {:induction false} DestinationBareName(s: string)
    requires |s| > 0 && !IsSpace(s[0]) && !IsSpace(s[|s| - 1])
    requires s[0] != '/' && s[|s| - 1] != '/'
    ensures NormalizeDestination(Some(s)) == "/" + s + "/"
  {
    assert DestinationText(Some(s)) == s;
    StripKeeps(s);
    DestinationFraming(Some(s));
  }

  /** A rooted prefix such as `/a/b` only gets the trailing slash: `/a/b/`. */
  lemma {:induction false} DestinationRootedPrefix(s: string)
    requires |s| > 0 && s[0] == '/' && !IsSpace(s[|s| - 1]) && s[|s| - 1] != '/'
    ensures NormalizeDestination(Some(s)) == s + "/"
  {
    assert DestinationText(Some(s)) == s;
    StripKeeps(s);
    DestinationFraming(Some(s));
  }

  /** `session_initiation.icos`: the object-storage credentials, passed through as given. */
  datatype Icos = Icos(
    apiKey: Option<string>,
    bucket: Option<string>,
    ibmServiceInstanceId: Option<string>,
    ibmServiceEndpoint: string)

  datatype SessionInitiation = SessionInitiation(icos: Icos)

  /** `file_system`: whether the daemon may create the destination prefix. */
  datatype FileSystemFlags = FileSystemFlags(createDir: bool)

  /**
   * One entry of `assets.paths`.  It has a `source` and nothing else: without
   * a `destination` key the remote side keeps the original file name.
   */
  datatype PathEntry = PathEntry(source: string)

  datatype Assets = Assets(destinationRoot: string, paths: seq<PathEntry>)

  datatype TransferSpec = TransferSpec(
    sessionInitiation: SessionInitiation,
    fileSystem: FileSystemFlags,
    direction: string,
    remoteHost: string,
    title: string,
    assets: Assets)

  /** The `source` of every entry, in order. */
  function Sources(paths: seq<PathEntry>): (r: seq<string>)
    ensures |r| == |paths|
  {
    if paths == [] then [] else [paths[0].source] + Sources(paths[1..])
  }

  /** One `{"source": f}` entry per file, in the order given. */
  function PathEntries(files: seq<string>): (r: seq<PathEntry>)
    ensures |r| == |files|
    ensures forall i | 0 <= i < |files| :: r[i] == PathEntry(files[i])
  {
    if files == [] then [] else [PathEntry(files[0])] + PathEntries(files[1..])
  }

  /** Reading the sources back out of the entries gives the file list again. */
  lemma {:induction false} SourcesOfPathEntries(files: seq<string>)
    ensures Sources(PathEntries(files)) == files
  {
    if files != [] {
      SourcesOfPathEntries(files[1..]);
    }
  }

  /** The document `create_transfer_spec(files)` returns for configuration `c`. */
  function CreateTransferSpec(c: UploadConfig, files: seq<string>): (spec: TransferSpec)
    ensures spec.sessionInitiation.icos
            == Icos(c.apiKey, c.bucket, c.serviceInstanceId, NormalizeEndpoint(c.serviceEndpoint))
    ensures spec.fileSystem.createDir == c.createDir
    ensures spec.direction == SendDirection && spec.title == TransferTitle
    ensures spec.remoteHost == c.remoteHost
    ensures spec.assets.destinationRoot == NormalizeDestination(Some(c.destination))
    ensures |spec.assets.paths| == |files|
    ensures forall i | 0 <= i < |files| :: spec.assets.paths[i].source == files[i]
  {
    TransferSpec(
      SessionInitiation(Icos(c.apiKey, c.bucket, c.serviceInstanceId, NormalizeEndpoint(c.serviceEndpoint))),
      FileSystemFlags(c.createDir),
      SendDirection,
      c.remoteHost,
      TransferTitle,
      Assets(NormalizeDestination(Some(c.destination)), PathEntries(files)))
  }

  /** What the daemon relies on in every document this builder produces. */
  predicate WellFormed(spec: TransferSpec) {
    && spec.direction == SendDirection
    && spec.title == TransferTitle
    && SlashWrapped(spec.assets.destinationRoot)
    && (spec.sessionInitiation.icos.ibmServiceEndpoint == "" || HasScheme(spec.sessionInitiation.icos.ibmServiceEndpoint))
  }

  /**
   * Every built document is well formed and lists exactly the given files as
   * sources, whatever the configuration (credentials may still be missing).
   */
  lemma CreateTransferSpecSound(c: UploadConfig, files: seq<string>)
    ensures WellFormed(CreateTransferSpec(c, files))
    ensures Sources(CreateTransferSpec(c, files).assets.paths) == files
  {
    SourcesOfPathEntries(files);
  }
}

=== FILE: uploader.dfy ===
/**
 * The `VideoUploader` object (main.py): its configuration, the lazily created
 * RPC client, and `upload_videos`, which validates the sources, builds the
 * transfer document, and either previews it (dry run) or connects, checks
 * the credentials, submits the transfer and monitors it.
 *
 * The daemon is reached through parameters: whether the client stub could
 * be created, the reply to StartTransfer, and the monitoring stream.  A
 * `sys.exit(1)` becomes an outcome value.
 */
module Uploader {
  import opened Wrappers
  import opened Config
  import opened TransferSpecs
  import opened Environment
  import opened Discovery
  import opened Monitor

  /** Address of the local transfer daemon when none is given. */
  const DefaultTransferManager := "localhost:55002"

  /** The RPC client handle, bound to the daemon's address. */
  datatype Client = Client(target: string)

  /** The daemon's answer to StartTransfer: a transfer identifier, or the error it raised. */
  datatype StartReply = Started(transferId: string) | StartRaised(message: string)

  /** The collaborators `upload_videos` calls, in the order it calls them. */
  datatype Step = ConnectStep | ValidateEnvironmentStep | StartTransferStep | MonitorStep

  /** How a call of `upload_videos` ends. */
  datatype Outcome =
    | NoVideoFiles                              // nothing to upload was given
    | NoValidFiles                              // every given path was rejected
    | DryRun(spec: TransferSpec)                // the document was shown, nothing was sent
    | ConnectFailed                             // the client could not be created: exit 1
    | MissingEnvironment(names: seq<string>)    // credentials incomplete: exit 1
    | TransferError(message: string)            // StartTransfer raised: exit 1
    | Monitored(transferId: string, verdict: Verdict, log: seq<Progress>)  // exit 1 when verdict is StreamBroken

  /**
   * The order of the calls a real (not dry) run makes: connect; then check
   * the credentials; then start the transfer; then monitor it.  Each stage
   * that fails ends the run there.
   */
  predicate SubmissionReport(c: UploadConfig, connected: bool, codes: StatusCodes, start: StartReply, stream: Stream,
                             steps: seq<Step>, outcome: Outcome)
  {
    if !connected then
      steps == [ConnectStep] && outcome == ConnectFailed
    else if ValidateEnvironment(c).EnvMissing? then
      steps == [ConnectStep, ValidateEnvironmentStep] && outcome == MissingEnvironment(MissingVariables(c))
    else if start.StartRaised? then
      steps == [ConnectStep, ValidateEnvironmentStep, StartTransferStep] && outcome == TransferError(start.message)
    else
      && steps == [ConnectStep, ValidateEnvironmentStep, StartTransferStep, MonitorStep]
      && outcome.Monitored? && outcome.transferId == start.transferId
      && MonitorReport(codes, stream, outcome.verdict, outcome.log)
  }

  /**
   * A real run never starts a transfer while a credential is missing, and it
   * only checks the credentials once connected.
   */
  lemma NoSubmissionWithoutCredentials(c: UploadConfig, connected: bool, codes: StatusCodes, start: StartReply,
                                       stream: Stream, steps: seq<Step>, outcome: Outcome)
    requires SubmissionReport(c, connected, codes, start, stream, steps, outcome)
    ensures steps[0] == ConnectStep
    ensures ValidateEnvironmentStep in steps ==> connected
    ensures StartTransferStep in steps ==> connected && MissingVariables(c) == []
  {
  }

  /** The client after `connect()`: kept when there is one, else created when possible. */
  function Connected(client: Option<Client>, target: string, stubCreated: bool): (r: Option<Client>)
    ensures client.Some? ==> r == client
    ensures client.None? ==> (r.Some? <==> stubCreated)
    ensures r.Some? && client.None? ==> r.value.target == target
  {
    if client.Some? then client else if stubCreated then Some(Client(target)) else None
  }

  class VideoUploader {
    const transferManager: string
    const config: UploadConfig
    var client: Option<Client>

    /** `VideoUploader(transfer_manager_host, create_dir)`, reading its settings from `env`. */
    constructor (transferManagerHost: string := DefaultTransferManager, createDir: bool := true, env: map<string, string>)
      ensures transferManager == transferManagerHost
      ensures config == ConfigFromEnv(env, createDir)
      ensures client.None?
    {
      transferManager := transferManagerHost;
      config := ConfigFromEnv(env, createDir);
      client := None;
    }

    /**
     * `connect()`: creates the client only when there is none yet, so calling
     * it again changes nothing.  `stubCreated` says whether creating the
     * client succeeded; when it did not, the run ends (`ok` is false).
     */
    method Connect(stubCreated: bool) returns (ok: bool)
      modifies this
      ensures client == Connected(old(client), transferManager, stubCreated)
      ensures ok <==> client.Some?
      ensures old(client).Some? ==> client == old(client) && ok
    {
      if client.None? {
        if stubCreated {
          client := Some(Client(transferManager));
        }
      }
      ok := client.Some?;
    }

    /**
     * The real-run part of `upload_videos`: connect, check the credentials,
     * submit, and monitor.
     */
    method SubmitTransfer(codes: StatusCodes, stubCreated: bool, start: StartReply, stream: Stream)
      returns (steps: seq<Step>, outcome: Outcome)
      modifies this
      ensures client == Connected(old(client), transferManager, stubCreated)
      ensures SubmissionReport(config, client.Some?, codes, start, stream, steps, outcome)
    {
      steps := [ConnectStep];
      var connected := Connect(stubCreated);
      if !connected {
        outcome := ConnectFailed;
        return;
      }

      steps := [ConnectStep, ValidateEnvironmentStep];
      var check := ValidateEnvironment(config);
      if check.EnvMissing? {
        outcome := MissingEnvironment(check.names);
        return;
      }

      steps := [ConnectStep, ValidateEnvironmentStep, StartTransferStep];
      match start {
        case StartRaised(message) =>
          outcome := TransferError(message);
        case Started(transferId) =>
          steps := [ConnectStep, ValidateEnvironmentStep, StartTransferStep, MonitorStep];
          var verdict, log := MonitorTransfer(codes, stream);
          outcome := Monitored(transferId, verdict, log);
      }
    }

    /**
     * `upload_videos(file_paths, dry_run)`.  An empty input returns at once.
     * Otherwise the sources are validated; if none survive, the call returns
     * before any document is built.  The document is built from the
     * survivors.  A dry run stops there, without connecting or checking the
     * credentials, so it works with incomplete ones.  A real run goes on as
     * `SubmissionReport` orders.
     */
    method UploadVideos(fs: FileSystem, filePaths: seq<Path>, dryRun: bool, codes: StatusCodes,
                        stubCreated: bool, start: StartReply, stream: Stream)
      returns (rejections: seq<Rejection>, spec: Option<TransferSpec>, steps: seq<Step>, outcome: Outcome)
      modifies this
      ensures filePaths == [] ==> rejections == [] && spec.None? && steps == [] && outcome == NoVideoFiles
      ensures filePaths != [] ==> rejections == Rejections(fs, filePaths)
      ensures spec.Some? <==> Admitted(fs, filePaths) != []
      ensures spec.Some? ==> spec.value == CreateTransferSpec(config, Admitted(fs, filePaths))
      ensures filePaths != [] && spec.None? ==> steps == [] && outcome == NoValidFiles
      ensures spec.Some? && dryRun ==> steps == [] && outcome == DryRun(spec.value)
      ensures spec.None? || dryRun ==> client == old(client)
      ensures spec.Some? && !dryRun ==>
                && client == Connected(old(client), transferManager, stubCreated)
                && SubmissionReport(config, client.Some?, codes, start, stream, steps, outcome)
    {
      rejections, spec, steps := [], None, [];
      if filePaths == [] {
        outcome := NoVideoFiles;
        return;
      }

      var valid;
      valid, rejections := ValidateSources(fs, filePaths);
      if valid == [] {
        outcome := NoValidFiles;
        return;
      }

      var transferSpec := CreateTransferSpec(config, valid);
      spec := Some(transferSpec);
      if dryRun {
        outcome := DryRun(transferSpec);
        return;
      }

      steps, outcome := SubmitTransfer(codes, stubCreated, start, stream);
    }
  }
}

=== FILE: wrappers.dfy ===
/** Optional values: Python's `None` versus a present value. */
module Wrappers {

  datatype Option<+T> = None | Some(value: T) {

    /** The value, or `default` when absent. */
    function GetOr(default: T): T {
      match this
      case Some(v) => v
      case None => default
    }
  }
}
